=== FILE: README.md ===
# AI learning path generator: rate limiter and learning-path store

This project models the core of the backend of an AI learning-path generator in
Dafny, and proves properties about that model.

**The admission limiter.** The `POST /api/generate` route is guarded by a
sliding-window limiter in `backend/main.py`. For each client address it keeps
the times of that client's admitted requests. Each request goes through these
steps:

- it first drops the times that are no longer strictly younger than
  `RATE_LIMIT_WINDOW` (60 seconds);
- it rejects the request with 429 when `RATE_LIMIT` (5) times remain;
- otherwise it records the current time and lets the request through.

Module `RateLimiter` models this. The table is the class `Limiter`, whose field
is a `map<string, seq<int>>`. Its methods `Admit` and `Handle` are proved
against the specification functions `Window`, `Admits` and `AfterAdmit`. The
function `Replay` runs a client's requests one after another. Lemmas about
`Replay` give the sliding-window guarantee: with a clock that never goes
back, in any window of 60 seconds, at most 5 requests are admitted. They also give the burst behaviour: in a burst
inside one window, the first five requests are admitted and the rest are
rejected.

**The learning-path store.** The routes in `backend/routes.py` work on two
tables, `learning_paths` and `milestones`. These are declared in
`backend/models.py`, where deleting a path cascades to its milestones. Module
`Routes` models the database session as the class `Store`. It holds both tables
as sequences in insertion order, plus the next id each table hands out. The
routes are modelled as follows:

- **`POST /generate`** (`Store.CreateLearningPath`).
  - The answer of the generation service is an input. It is either the text of
    the exception the service raised, or a JSON object whose keys may be
    missing.
  - The route reads the keys in the order the source does. It writes the path
    row, then one row per milestone, with `order` equal to the milestone's
    position and `completed` false.
  - A failure while reading the answer or writing the rows rolls the session
    back to its state before the request and is reported as 500, with the
    exception text as detail. (A failure after the commit, while building the
    response, is not modelled; see "Left out".)
  - On success, the response lists exactly the new rows, in creation order. It
    is also what `GET /paths/{id}` then returns.
- **`GET /paths/{id}`** (`GetPath`) and **`GET /paths`** (`ListPaths`) are
  functions of the tables.
  - Milestones are sorted by `order` (an insertion sort; the result is proved
    sorted and a permutation of its input). No two milestones of a path share
    an `order`, so `GET /paths/{id}` lists them strictly by `order`.
  - Paths are listed newest `created_at` first.
- **`PATCH /milestones/{id}`** (`Store.UpdateMilestone`) sets the completion
  flag and the completion time together.
- **`DELETE /paths/{id}`** (`Store.DeletePath`) removes the path and, by the
  cascade, exactly its milestones.

The store keeps these invariants (`TablesValid`):

- ids are unique and below the next id;
- every milestone belongs to a stored path;
- within a path, no two milestones share an `order` (create numbers them by
  position, update never changes `order`, delete removes whole paths);
- `completed` holds exactly when `completed_at` is set.

Modules:

- `Wrappers`: `Option` and `Result`.
- `Sequences`: filtering, insertion sort and mapping over sequences, with
  their lemmas.
- `RateLimiter`: `backend/main.py`, lines 33-62.
- `Models`: the records of `backend/models.py` and the milestones relationship
  with its cascade.
- `Routes`: `backend/routes.py`.

Modelling choices:

- Clock readings (`time.time()`, `datetime.utcnow()`) become integer
  parameters.
- The generation service is a parameter of the route (see "Left out").

Two details of the code the model keeps as written:

- An entry exactly one window old no longer counts, because the comparison on
  `backend/main.py:46` is a strict `<`.
- The 500 detail of a failed generation is the exception's own text, as
  `backend/routes.py:119` builds it from the exception.

## Model

| member | source | states |
|---|---|---|
| RateLimiter.Prune | backend/main.py:46 | keeps exactly the entries strictly younger than the window, each as often as before, and never grows the list |
| RateLimiter.AdmissionBounds | backend/main.py:51 | the test of `Admits`: a client not in the table, or with fewer than RATE_LIMIT stored entries, is admitted; a rejected client has at least RATE_LIMIT entries still inside the window |
| RateLimiter.Window | backend/main.py:44-49 | the list the admission test looks at holds only recent entries; it is empty for a client not seen before and never longer than the stored list |
| RateLimiter.AfterAdmit | backend/main.py:44-59 | the table after one decision has the client's key added, and every other client's list is unchanged |
| RateLimiter.Limiter.constructor | backend/main.py:35 | the limiter starts with no client and within the limit |
| RateLimiter.Limiter.Admit | backend/main.py:41-59 | admits exactly when fewer than RATE_LIMIT recent entries remain; stores the pruned list, with `now` appended only when admitted; keeps every list within RATE_LIMIT |
| RateLimiter.Limiter.Handle | backend/main.py:37-62 | only a POST to /api/generate is metered; a rejected one is answered 429 with the fixed detail; every other request passes through with the table unchanged |
| RateLimiter.AdmittedRecordsNow | backend/main.py:59 | an admitted request appends `now` to the pruned window, and the list stays within RATE_LIMIT |
| RateLimiter.RejectedRecordsNothing | backend/main.py:51-57 | a rejected request records nothing: the list becomes the pruned window, which holds at least RATE_LIMIT entries, and only a known client can be rejected |
| RateLimiter.FirstRequestAdmitted | backend/main.py:48-49 | a client's first request starts from an empty list and is admitted |
| RateLimiter.KeptEntriesAreRecent | backend/main.py:46-47 | after a decision, every kept entry except a just-recorded `now` is inside the window; an entry exactly one window old is gone |
| RateLimiter.AdmitKeepsLimit | backend/main.py:51-59 | every client's list stays within RATE_LIMIT entries, whatever the decision |
| RateLimiter.ClientsAreIsolated | backend/main.py:45-49 | a decision for one client changes neither another client's list nor the decision that client would get |
| RateLimiter.WindowExpiry | backend/main.py:46 | once all of a client's entries are a full window old, its next request is admitted and its list restarts from `now` |
| RateLimiter.PruneTwice | backend/main.py:46 | pruning at an earlier time and then at a later one is the same as pruning at the later one |
| RateLimiter.PruneAppend | backend/main.py:46 | pruning distributes over appending one more time |
| RateLimiter.Replay | backend/main.py:37-62 | a run of requests from one client gives one decision per request; admitted times are some of the request times; the client is then in the table |
| RateLimiter.ReplayKeepsRecentAdmitted | backend/main.py:44-59 | with a clock that never goes back, the stored list is exactly the admitted times still inside the window of the latest request, and never more than RATE_LIMIT |
| RateLimiter.AtMostLimitPerWindow | backend/main.py:33-34 | with a clock that never goes back, at most RATE_LIMIT requests are admitted in any window of RATE_LIMIT_WINDOW seconds |
| RateLimiter.WindowIsAllAdmitted | backend/main.py:46 | when all earlier requests are inside the current window, the window the decision looks at is all the admitted requests |
| RateLimiter.BurstStep | backend/main.py:51-59 | within one window, the next request is admitted exactly when fewer than RATE_LIMIT requests were admitted before it |
| RateLimiter.BurstInOneWindow | backend/main.py:51-59 | in a burst from a new client within one window, request i is admitted exactly when i < RATE_LIMIT |
| RateLimiter.SixRequestsInOneWindow | backend/tests/test_api.py:69-81 | six requests in one window from a new client: the first five are admitted and the sixth is rejected |
| RateLimiter.AdmitWithRoom | backend/main.py:46-59 | a request that finds every stored entry recent and fewer than RATE_LIMIT of them is admitted, and `now` is appended to the list |
| RateLimiter.RestartAfterWindow | backend/main.py:46-59 | a request that finds every stored entry a full window old is admitted, and the list restarts from `now` |
| RateLimiter.SameTimeBurst | backend/main.py:44-59 | up to RATE_LIMIT requests at one time from a new client are all admitted, and the list holds exactly them |
| RateLimiter.AdmitRun | backend/main.py:44-59 | a run of requests at one time `now` that fits beside the stored entries, all recent at `now`, is admitted whole and appended to the list |
| RateLimiter.ClockStepBackAdmitsMore | backend/main.py:42-59 | with a clock that goes back, five requests at `start`, one at `start + 60` and four at `start + 59` are all admitted, and nine of the admitted times lie in the window that ends at `start + 59` |
| Models.ChildrenOf | backend/models.py:17 | a path's milestones are exactly the table's rows that point to it |
| Models.CascadeRemovesOnlyChildren | backend/models.py:17 | the cascade leaves the deleted path no milestones and leaves every other path exactly its milestones, in order |
| Sequences.FilterAppend | backend/main.py:46 | filtering a concatenation is the concatenation of the filtered parts, so the kept elements keep their relative order |
| Sequences.Filter | backend/main.py:46 | a list comprehension with a condition keeps exactly the elements that pass it, with their multiplicities, and never grows |
| Sequences.SortBy | backend/routes.py:181 | `sorted` by a key gives an ordered permutation of its input |
| Sequences.SortByOfSorted | backend/routes.py:181 | `sorted` leaves a list that is already in key order unchanged |
| Sequences.SortByStrict | backend/routes.py:181 | `sorted` of a list whose keys are all different gives strictly increasing keys |
| Routes.ParseMilestone | backend/routes.py:79-86 | a milestone of the answer is read when all four keys are present; otherwise the KeyError of the first missing key, in the order title, description, estimated_hours, resources |
| Routes.ParseMilestones | backend/routes.py:78-88 | the milestones are read when each one is well formed, keeping their order; otherwise the error of the first malformed one |
| Routes.FirstFailure | backend/routes.py:78-88 | the first malformed milestone's KeyError is the one the route reports |
| Routes.ParseAi | backend/routes.py:68-88 | the answer is well formed exactly when path_title, path_description and milestones are present and every milestone is well formed; otherwise the KeyError of the first missing top-level key, in the order path_title, path_description, milestones, or else the error of the first malformed milestone |
| Routes.KeyErrorDetail | backend/routes.py:119 | the detail `str(e)` of a KeyError is the missing key between single quotes |
| Routes.NewMilestone | backend/routes.py:79-87 | the new row belongs to the path, has the given id and `order`, copies title, description, hours and resources from the answer, and is not completed, with no completion time |
| Routes.MilestoneView | backend/routes.py:96-105 | the `MilestoneResponse` copies every field of the row, so a consistent row gives a response whose `completed` holds exactly when `completed_at` is set |
| Routes.NewRows | backend/routes.py:78-88 | one row per milestone, numbered from the next id, owned by the new path, `order` its position, keeping the milestone's title, description, hours and resources, not completed and with no completion time |
| Routes.PathView | backend/routes.py:161-182 | the response carries the path's fields, and its milestones are sorted by `order` and are exactly the views of the path's milestone rows |
| Routes.FindPath | backend/routes.py:156 | the lookup finds a path exactly when a path with that id is stored, and what it finds has that id |
| Routes.FindAppended | backend/routes.py:74-75 | a path appended with a fresh id is the one a lookup of that id finds |
| Routes.FindMilestone | backend/routes.py:187 | the lookup finds a milestone exactly when one with that id is stored, and gives its position |
| Routes.GetPath | backend/routes.py:153-182 | 404 "Learning path not found" exactly when no path has the id; otherwise that path's view, with milestones sorted by `order` and exactly the path's own |
| Routes.ListPaths | backend/routes.py:121-151 | every stored path once, newest `created_at` first, each with its milestones sorted by `order` |
| Routes.ViewsInOrder | backend/routes.py:124-149 | viewing paths sorted newest first keeps them newest first, and sorts each one's milestones |
| Routes.FreshPathView | backend/routes.py:90-117 | a just-created path's response lists exactly its new rows, in creation order |
| Routes.OneMilestoneAnswer | backend/tests/test_api.py:24-50 | the mocked one-milestone answer is well formed; its path is "Test Path" and its response lists one milestone, "Test Milestone", not completed |
| Routes.CreateKeepsTablesValid | backend/routes.py:67-90 | adding a path with the next id, and rows owned by it numbered from the next milestone id with `order` their position, keeps the tables consistent, unique orders within a path included |
| Routes.CommittedPath | backend/routes.py:90-117 | after a commit, the tables are consistent, the new path id was unused, and the response lists exactly the new rows |
| Routes.UnknownPathHasNoChildren | backend/routes.py:202-205 | in consistent tables, an id with no path owns no milestone |
| Routes.DeleteKeepsTablesValid | backend/routes.py:207-208 | deleting a path together with its milestones keeps the tables consistent, unique orders within a path included |
| Routes.UpdateKeepsTablesValid | backend/routes.py:192-193 | changing only the completion state of milestones, consistently, keeps the tables consistent: ids, owners and `order` are untouched |
| Routes.GetPathStrictlyOrdered | backend/routes.py:153-182 | in consistent tables, a found path's milestones come back in strictly increasing `order` (create numbers them by position, line 83), so the response order leaves no tie open |
| Routes.Store.constructor | backend/models.py:6-30 | an empty database: both tables empty, and both id counters at 1 |
| Routes.Store.CreateLearningPath | backend/routes.py:56-119 | fails with 500 exactly when the service failed or its answer lacks a key, and then leaves the tables as they were; otherwise it appends the path with the next id and one new row per milestone, advances the path counter by one and the milestone counter by the number of milestones, and returns exactly what GET of that id returns |
| Routes.Store.WriteGeneratedPath | backend/routes.py:59-88 | the body of the `try`: fails with the exception text exactly when the service failed or a key is missing; otherwise it has added the path and its rows |
| Routes.Store.AddMilestones | backend/routes.py:77-88 | adds one row per milestone in list order, or stops with the first missing key's error |
| Routes.Store.UpdateMilestone | backend/routes.py:184-197 | 404 "Milestone not found" exactly when no milestone has the id; otherwise only that milestone changes, with `completed_at` set exactly when completed |
| Routes.Store.DeletePath | backend/routes.py:199-210 | 404 exactly when the path is absent, and then nothing changes; otherwise the path and exactly its milestones are gone, other paths keep theirs, the tables stay consistent, and GET of the id is 404 |

## Left out

- HTTP and FastAPI glue are not modelled. This covers routing, request parsing, CORS, the health and root routes, JSON encoding of responses and `json.dumps`/`json.loads` of `resources`. Resources are stored as the list they encode.
- The generation service (`backend/ai_service.py`) is not part of this model. It is a parameter of the route: either the text of the exception it raised or its JSON answer. The same goes for prompt construction and the HTTPS call.
- Malformed answers beyond missing keys are not modelled: a field of the wrong type, a non-object answer, or `milestones` that is not a list.
- Floating point is not modelled. Times are integers, so sub-second `time.time()` readings become whole seconds, and `estimated_hours` is a `real` that nothing computes on.
- Concurrency is not modelled. The race between concurrent requests from one client in the limiter, and interleaved sessions, are outside the model: each call runs alone.
- Routes.Store.CreateLearningPath: a failure after the commit is not modelled. With a null `path_title` or `path_description`, or a null `title`, `description`, `estimated_hours` or `resources` of a milestone, in the answer, the rows are accepted by the nullable columns and committed, and building `MilestoneResponse` then fails; the route answers 500 but the path and its milestones stay stored, since the rollback has nothing left to undo. The model treats values as always well typed, so it only states "a failed create changes nothing" for the failures it models: the service's exception and missing keys.
- Failures of the database itself (during `flush`/`commit`) are not modelled. Only failures caused by the service or its answer reach the rollback.
- `database.py` is not part of this model, and the database starts empty. Ids come from counters starting at 1 that never hand an id out twice. A database whose integer primary key is `max(id) + 1` (as an SQLite rowid without AUTOINCREMENT is) would reuse the id of the newest path after it is deleted; the model does not capture that reuse.
- `LearningPath.updated_at` is not modelled beyond being set on creation. No route of the core updates a path row.
- Routes.ListPaths: the order among paths with equal `created_at` is whatever the insertion sort gives; the model proves no particular tie order (neither table order nor stability). SQL leaves the order of ties unspecified.
- RateLimiter.AtMostLimitPerWindow: the bound assumes a clock that never goes back. `time.time()` (`backend/main.py:42`) is a wall clock and can step back, and then the source admits more: a new client sending requests at 0, 0, 0, 0, 0, then 60, then 59, 59, 59, 59 has all ten admitted, nine of them at times inside [0, 59]. At 60 every stored entry is a full window old and dropped; at 59 the stored entry 60 counts as recent (59 − 60 < 60), so four more fit (`RateLimiter.ClockStepBackAdmitsMore`).
- The limiter's table grows with every distinct client and is never evicted. The model keeps that behaviour but proves nothing about memory.
- The frontend (`frontend/src`) is not part of this model.

=== FILE: models.dfy ===
/**
 * The two tables of the backend (backend/models.py): learning paths and
 * the milestones each of them owns.
 */
module Models {
  import opened Wrappers
  import opened Sequences

  /** A row of `learning_paths`. Times are clock readings in whole seconds. */
  datatype LearningPath = LearningPath(
    id: int,
    title: string,
    description: string,
    experienceLevel: string,
    timeCommitment: string,
    createdAt: int,
    updatedAt: int)

  /**
   * A row of `milestones`. The resource list is held decoded: its JSON
   * encoding and decoding cancel out, so the model keeps the list itself.
   */
  datatype Milestone = Milestone(
    id: int,
    learningPathId: int,
    title: string,
    description: string,
    order: int,
    estimatedHours: real,
    resources: seq<string>,
    completed: bool,
    completedAt: Option<int>)

  /** A completion time is recorded exactly for a completed milestone. */
  predicate CompletionConsistent(m: Milestone)
  {
    m.completed <==> m.completedAt.Some?
  }

  /** Within one path, no two milestones share an `order`. */
  ghost predicate OrdersUnique(milestones: seq<Milestone>)
  {
    forall a, b :: a in milestones && b in milestones && a.id != b.id && a.learningPathId == b.learningPathId
      ==> a.order != b.order
  }

  /** Keeping only some of the milestones keeps their orders unique. */
  lemma OrdersUniqueSubset(milestones: seq<Milestone>, kept: seq<Milestone>)
    requires OrdersUnique(milestones)
    requires forall m :: m in kept ==> m in milestones
    ensures OrdersUnique(kept)
  {
  }

  /**
   * Changing milestones without touching their ids, owners or `order`
   * keeps their orders unique.
   */
  lemma OrdersUniquePointwise(milestones: seq<Milestone>, updated: seq<Milestone>)
    requires OrdersUnique(milestones)
    requires |updated| == |milestones|
    requires forall i :: 0 <= i < |milestones| ==>
      updated[i].id == milestones[i].id && updated[i].learningPathId == milestones[i].learningPathId
      && updated[i].order == milestones[i].order
    ensures OrdersUnique(updated)
  {
    forall a, b | a in updated && b in updated && a.id != b.id && a.learningPathId == b.learningPathId
      ensures a.order != b.order
    {
      var i :| 0 <= i < |updated| && updated[i] == a;
      var j :| 0 <= j < |updated| && updated[j] == b;
      assert milestones[i] in milestones && milestones[j] in milestones;
    }
  }

  function PathKey(p: LearningPath): int { p.id }

  function MilestoneKey(m: Milestone): int { m.id }

  /** The ids of the paths in a table. */
  function PathIds(paths: seq<LearningPath>): set<int>
  {
    set p | p in paths :: p.id
  }

  /** The path is some other one than `pathId`. */
  function OtherPath(pathId: int): LearningPath -> bool
  {
    (p: LearningPath) => p.id != pathId
  }

  /** The milestone belongs to path `pathId`. */
  function ChildOf(pathId: int): Milestone -> bool
  {
    (m: Milestone) => m.learningPathId == pathId
  }

  /** The milestone belongs to some other path than `pathId`. */
  function NotChildOf(pathId: int): Milestone -> bool
  {
    (m: Milestone) => m.learningPathId != pathId
  }

  /** The milestones relationship of a path: its milestones, in table order. */
  function ChildrenOf(milestones: seq<Milestone>, pathId: int): (r: seq<Milestone>)
    ensures forall m :: m in r <==> m in milestones && m.learningPathId == pathId
    ensures forall i :: 0 <= i < |r| ==> r[i].learningPathId == pathId
  {
    var r := Filter(milestones, ChildOf(pathId));
    assert forall i :: 0 <= i < |r| ==> r[i] in r;
    r
  }

  /**
   * The cascade of the milestones relationship: removing every milestone of
   * path `pathId` leaves it none, and leaves every other path exactly the
   * milestones it had, in the same order.
   */
  lemma CascadeRemovesOnlyChildren(milestones: seq<Milestone>, pathId: int, other: int)
    ensures ChildrenOf(Filter(milestones, NotChildOf(pathId)), pathId) == []
    ensures other != pathId ==>
      ChildrenOf(Filter(milestones, NotChildOf(pathId)), other) == ChildrenOf(milestones, other)
  {
    if other != pathId {
      FilterOfFilter(milestones, NotChildOf(pathId), ChildOf(other));
    }
  }
}

=== FILE: rate_limiter.dfy ===
/**
 * The sliding-window admission limiter that guards `POST /api/generate`
 * (backend/main.py, lines 33-62). For every client address it keeps the
 * times of its recent admitted requests; a request is admitted when fewer
 * than RATE_LIMIT of them are younger than RATE_LIMIT_WINDOW seconds.
 */
module RateLimiter {
  import opened Sequences

  /** Admitted requests allowed per client inside one window. */
  const RATE_LIMIT: nat := 5
  /** Width of the trailing window, in seconds. */
  const RATE_LIMIT_WINDOW: int := 60
  /** The only route the limiter meters. */
  const GENERATE_PATH: string := "/api/generate"
  const TOO_MANY_REQUESTS_STATUS: int := 429
  const TOO_MANY_REQUESTS_DETAIL: string := "Too many requests. Please try again later."

  /** Client address to the times of its recorded requests, oldest first. */
  type Counts = map<string, seq<int>>

  /** What the middleware sees of a request. */
  datatype Request = Request(path: string, httpMethod: string, clientHost: string)

  /** What the middleware does with it: hand it on, or answer with an error status itself. */
  datatype Gate = CallNext | Reject(status: int, detail: string)

  /** The request is the metered one: a POST to the generation route. */
  predicate IsGenerate(req: Request)
  {
    req.path == GENERATE_PATH && req.httpMethod == "POST"
  }

  /**
   * A timestamp recorded at `t` still counts at time `now`. The comparison
   * is strict, so an entry exactly one window old no longer counts.
   */
  predicate Recent(now: int, t: int)
  {
    now - t < RATE_LIMIT_WINDOW
  }

  /** `Recent` at a fixed `now`, as the condition of the list comprehension on line 46. */
  function RecentAt(now: int): int -> bool
  {
    t => Recent(now, t)
  }

  /** The client's list with the entries that left the window removed, in order. */
  function Prune(ts: seq<int>, now: int): (r: seq<int>)
    ensures |r| <= |ts|
    ensures forall t :: t in r <==> t in ts && Recent(now, t)
    ensures forall t :: multiset(r)[t] == if Recent(now, t) then multiset(ts)[t] else 0
  {
    Filter(ts, RecentAt(now))
  }

  /** The list the admission test looks at: the pruned list, or an empty one for a first-time client. */
  function Window(counts: Counts, ip: string, now: int): (w: seq<int>)
    ensures forall t :: t in w ==> Recent(now, t)
    ensures ip !in counts ==> w == []
    ensures ip in counts ==> |w| <= |counts[ip]|
  {
    if ip in counts then Prune(counts[ip], now) else []
  }

  /** The request is admitted: the client's window holds fewer than RATE_LIMIT entries. */
  predicate Admits(counts: Counts, ip: string, now: int)
  {
    |Window(counts, ip, now)| < RATE_LIMIT
  }

  /**
   * The table after one admission decision for `ip` at `now`: the pruned
   * window, with `now` appended when admitted. No other client's entry changes.
   */
  function AfterAdmit(counts: Counts, ip: string, now: int): (next: Counts)
    ensures next.Keys == counts.Keys + {ip}
    ensures forall other :: other in counts && other != ip ==> next[other] == counts[other]
  {
    var w := Window(counts, ip, now);
    counts[ip := if |w| < RATE_LIMIT then w + [now] else w]
  }

  /** Every client has at most RATE_LIMIT recorded requests. */
  ghost predicate WithinLimit(counts: Counts)
  {
    forall ip :: ip in counts ==> |counts[ip]| <= RATE_LIMIT
  }

  /** The module-level `request_counts` table and the middleware that updates it. */
  class Limiter {
    var requestCounts: Counts

    ghost predicate Valid()
      reads this
    {
      WithinLimit(requestCounts)
    }

    /** A fresh process: no client has been seen (line 35). */
    constructor ()
      ensures Valid()
      ensures requestCounts == map[]
    {
      requestCounts := map[];
    }

    /** The admission step of lines 41-59 for one client at time `now`. */
    method Admit(ip: string, now: int) returns (allowed: bool)
      requires Valid()
      modifies this
      ensures Valid()
      ensures allowed == Admits(old(requestCounts), ip, now)
      ensures requestCounts == AfterAdmit(old(requestCounts), ip, now)
    {
      if ip in requestCounts {
        var requests := Prune(requestCounts[ip], now);
        requestCounts := requestCounts[ip := requests];
      } else {
        requestCounts := requestCounts[ip := []];
      }
      if |requestCounts[ip]| >= RATE_LIMIT {
        allowed := false;
        return;
      }
      requestCounts := requestCounts[ip := requestCounts[ip] + [now]];
      allowed := true;
    }

    /**
     * The whole middleware (lines 37-62): only a POST to the generation route
     * is metered; a rejected one is answered with 429 and never reaches the
     * route, every other request passes through untouched.
     */
    method Handle(req: Request, now: int) returns (gate: Gate)
      requires Valid()
      modifies this
      ensures Valid()
      ensures !IsGenerate(req) ==> gate == CallNext && requestCounts == old(requestCounts)
      ensures IsGenerate(req) ==> requestCounts == AfterAdmit(old(requestCounts), req.clientHost, now)
      ensures IsGenerate(req) ==>
        gate == if Admits(old(requestCounts), req.clientHost, now) then CallNext
                else Reject(TOO_MANY_REQUESTS_STATUS, TOO_MANY_REQUESTS_DETAIL)
    {
      gate := CallNext;
      if IsGenerate(req) {
        var allowed := Admit(req.clientHost, now);
        if !allowed {
          gate := Reject(TOO_MANY_REQUESTS_STATUS, TOO_MANY_REQUESTS_DETAIL);
        }
      }
    }
  }

  /** Admitted: the client's list becomes its pruned window followed by `now`. */
  lemma AdmittedRecordsNow(counts: Counts, ip: string, now: int)
    requires Admits(counts, ip, now)
    ensures AfterAdmit(counts, ip, now)[ip] == Window(counts, ip, now) + [now]
    ensures |AfterAdmit(counts, ip, now)[ip]| <= RATE_LIMIT
  {
  }

  /**
   * Rejected: the client's list becomes its pruned window and `now` is not
   * recorded; only a client already in the table can be rejected.
   */
  lemma RejectedRecordsNothing(counts: Counts, ip: string, now: int)
    requires !Admits(counts, ip, now)
    ensures ip in counts
    ensures AfterAdmit(counts, ip, now)[ip] == Prune(counts[ip], now)
    ensures |AfterAdmit(counts, ip, now)[ip]| >= RATE_LIMIT
  {
  }

  /**
   * The admission test in terms of the stored list: a client with fewer than
   * RATE_LIMIT stored entries is always admitted, and a rejected client has
   * at least RATE_LIMIT entries that are all still recent.
   */
  lemma AdmissionBounds(counts: Counts, ip: string, now: int)
    ensures ip !in counts ==> Admits(counts, ip, now)
    ensures ip in counts && |counts[ip]| < RATE_LIMIT ==> Admits(counts, ip, now)
    ensures !Admits(counts, ip, now) ==>
      ip in counts && |counts[ip]| >= RATE_LIMIT
      && |Prune(counts[ip], now)| >= RATE_LIMIT
  {
  }

  /** A first-time client starts from an empty list and is admitted. */
  lemma FirstRequestAdmitted(counts: Counts, ip: string, now: int)
    requires ip !in counts
    ensures Admits(counts, ip, now)
    ensures AfterAdmit(counts, ip, now)[ip] == [now]
  {
  }

  /**
   * After a decision, every entry kept for the calling client except a
   * just-appended `now` is younger than one window; an entry exactly one
   * window old is gone.
   */
  lemma KeptEntriesAreRecent(counts: Counts, ip: string, now: int)
    ensures var kept := AfterAdmit(counts, ip, now)[ip];
            var old' := if Admits(counts, ip, now) then |kept| - 1 else |kept|;
            0 <= old' && forall i :: 0 <= i < old' ==> Recent(now, kept[i])
    ensures now - RATE_LIMIT_WINDOW !in AfterAdmit(counts, ip, now)[ip]
  {
    var w := Window(counts, ip, now);
    var kept := AfterAdmit(counts, ip, now)[ip];
    forall i | 0 <= i < |w| ensures Recent(now, kept[i]) {
      assert kept[i] == w[i];
      assert w[i] in w;
    }
  }

  /** Every client's list stays within RATE_LIMIT entries, whatever the decision. */
  lemma AdmitKeepsLimit(counts: Counts, ip: string, now: int)
    requires WithinLimit(counts)
    ensures WithinLimit(AfterAdmit(counts, ip, now))
  {
  }

  /**
   * Clients are isolated: a decision for `ip` changes neither another
   * client's list nor the decision that client would get.
   */
  lemma ClientsAreIsolated(counts: Counts, ip: string, other: string, now: int, later: int)
    requires other != ip
    ensures other in AfterAdmit(counts, ip, now) <==> other in counts
    ensures other in counts ==> AfterAdmit(counts, ip, now)[other] == counts[other]
    ensures Admits(AfterAdmit(counts, ip, now), other, later) == Admits(counts, other, later)
  {
  }

  /** Once every recorded request of a client is a full window old, its next request is admitted afresh. */
  lemma WindowExpiry(counts: Counts, ip: string, now: int)
    requires ip in counts
    requires forall i :: 0 <= i < |counts[ip]| ==> !Recent(now, counts[ip][i])
    ensures Admits(counts, ip, now)
    ensures AfterAdmit(counts, ip, now)[ip] == [now]
  {
  }

  /** Pruning at an earlier time and then at a later one is pruning at the later one. */
  lemma PruneTwice(ts: seq<int>, earlier: int, later: int)
    requires earlier <= later
    ensures Prune(Prune(ts, earlier), later) == Prune(ts, later)
  {
    assert forall t :: RecentAt(later)(t) ==> RecentAt(earlier)(t);
    FilterOfFilter(ts, RecentAt(earlier), RecentAt(later));
  }

  /** Pruning distributes over appending one more request time. */
  lemma PruneAppend(ts: seq<int>, t: int, now: int)
    ensures Prune(ts + [t], now) == Prune(ts, now) + if Recent(now, t) then [t] else []
  {
    FilterAppend(ts, [t], RecentAt(now));
    assert [t] == [t] + [];
  }

  /** What a run of requests from one client leaves behind. */
  datatype Trace = Trace(decisions: seq<bool>, admitted: seq<int>, counts: Counts)

  /**
   * The limiter's decisions for requests from `ip` at the given times, one
   * after the other, the times of the admitted ones, and the final table.
   */
  function Replay(counts: Counts, ip: string, times: seq<int>): (tr: Trace)
    ensures |tr.decisions| == |times|
    ensures |tr.admitted| <= |times|
    ensures forall t :: t in tr.admitted ==> t in times
    ensures times != [] ==> ip in tr.counts
    decreases |times|
  {
    if times == [] then Trace([], [], counts)
    else
      var before := times[..|times| - 1];
      var now := times[|times| - 1];
      assert times == before + [now];
      var prev := Replay(counts, ip, before);
      var ok := Admits(prev.counts, ip, now);
      Trace(prev.decisions + [ok],
            if ok then prev.admitted + [now] else prev.admitted,
            AfterAdmit(prev.counts, ip, now))
  }

  /** The times read off a clock: never decreasing. */
  predicate NonDecreasing(times: seq<int>)
  {
    forall i, j :: 0 <= i < j < |times| ==> times[i] <= times[j]
  }

  /**
   * With a clock that never goes back, a client's list is exactly its
   * admitted request times that are still inside the window of the latest
   * request, and it never holds more than RATE_LIMIT of them.
   */
  lemma {:induction false} ReplayKeepsRecentAdmitted(counts: Counts, ip: string, times: seq<int>)
    requires ip !in counts
    requires NonDecreasing(times)
    requires times != []
    ensures var tr := Replay(counts, ip, times);
            tr.counts[ip] == Prune(tr.admitted, times[|times| - 1])
            && |tr.counts[ip]| <= RATE_LIMIT
  {
    var before := times[..|times| - 1];
    var now := times[|times| - 1];
    var prev := Replay(counts, ip, before);
    if before == [] {
      assert prev.counts == counts && prev.admitted == [];
      assert Prune([now], now) == Prune([], now) + [now] by { PruneAppend([], now, now); }
    } else {
      ReplayKeepsRecentAdmitted(counts, ip, before);
      var last := before[|before| - 1];
      PruneTwice(prev.admitted, last, now);
      PruneAppend(prev.admitted, now, now);
    }
  }

  /** The time lies in the window that ends at `at`. */
  function InWindow(at: int): int -> bool
  {
    t => Recent(at, t) && t <= at
  }

  /** The admitted requests whose times fall in the window that ends at `at`. */
  function InWindowAt(admitted: seq<int>, at: int): (r: seq<int>)
    ensures forall t :: t in r <==> t in admitted && Recent(at, t) && t <= at
  {
    Filter(admitted, InWindow(at))
  }

  /**
   * The sliding-window guarantee: with a clock that never goes back, a
   * client gets at most RATE_LIMIT requests admitted in any window of
   * RATE_LIMIT_WINDOW seconds, whatever window one looks at.
   */
  lemma {:induction false} AtMostLimitPerWindow(counts: Counts, ip: string, times: seq<int>, at: int)
    requires ip !in counts
    requires NonDecreasing(times)
    ensures |InWindowAt(Replay(counts, ip, times).admitted, at)| <= RATE_LIMIT
  {
    if times != [] {
      var tr := Replay(counts, ip, times);
      var before := times[..|times| - 1];
      var now := times[|times| - 1];
      var prev := Replay(counts, ip, before);
      var inWindow := InWindow(at);
      if now <= at {
        ReplayKeepsRecentAdmitted(counts, ip, times);
        forall t | t in tr.admitted ensures inWindow(t) ==> RecentAt(now)(t) {
          var i :| 0 <= i < |times| && times[i] == t;
        }
        assert forall t :: t in tr.admitted ==> (inWindow(t) ==> RecentAt(now)(t));
        FilterSubsumed(tr.admitted, RecentAt(now), inWindow);
      } else {
        AtMostLimitPerWindow(counts, ip, before, at);
        if Admits(prev.counts, ip, now) {
          FilterAppend(prev.admitted, [now], inWindow);
        }
      }
    }
  }

  /**
   * When every earlier request of a client is still inside the window at
   * `now`, the window the next decision looks at is all its admitted requests.
   */
  lemma WindowIsAllAdmitted(counts: Counts, ip: string, before: seq<int>, now: int)
    requires ip !in counts
    requires NonDecreasing(before)
    requires before != [] ==> before[|before| - 1] <= now
    requires forall i :: 0 <= i < |before| ==> Recent(now, before[i])
    ensures Window(Replay(counts, ip, before).counts, ip, now) == Replay(counts, ip, before).admitted
  {
    var prev := Replay(counts, ip, before);
    if before != [] {
      ReplayKeepsRecentAdmitted(counts, ip, before);
      PruneTwice(prev.admitted, before[|before| - 1], now);
      forall i | 0 <= i < |prev.admitted| ensures RecentAt(now)(prev.admitted[i]) {
        assert prev.admitted[i] in before;
      }
      FilterKeepsAll(prev.admitted, RecentAt(now));
    }
  }

  /** Number of requests a client with no history gets admitted out of `n` in one window. */
  function AdmittedOf(n: nat): nat
  {
    if n < RATE_LIMIT then n else RATE_LIMIT
  }

  /** One more request in the window: decided by how many were admitted before it. */
  lemma BurstStep(counts: Counts, ip: string, before: seq<int>, now: int)
    requires Window(Replay(counts, ip, before).counts, ip, now) == Replay(counts, ip, before).admitted
    requires |Replay(counts, ip, before).admitted| == AdmittedOf(|before|)
    requires forall i :: 0 <= i < |before| ==> Replay(counts, ip, before).decisions[i] == (i < RATE_LIMIT)
    ensures var tr := Replay(counts, ip, before + [now]);
            (forall i :: 0 <= i <= |before| ==> tr.decisions[i] == (i < RATE_LIMIT))
            && |tr.admitted| == AdmittedOf(|before| + 1)
  {
    var times := before + [now];
    assert times[..|times| - 1] == before;
    var prev := Replay(counts, ip, before);
    var tr := Replay(counts, ip, times);
    var ok := Admits(prev.counts, ip, now);
    assert ok == (|before| < RATE_LIMIT);
    assert tr.decisions == prev.decisions + [ok];
    forall i | 0 <= i <= |before| ensures tr.decisions[i] == (i < RATE_LIMIT) {
      if i < |before| {
        assert tr.decisions[i] == prev.decisions[i];
      }
    }
  }

  /**
   * Requests from a first-time client that all fall in one window: the
   * first RATE_LIMIT are admitted and every later one is rejected.
   */
  lemma {:induction false} BurstInOneWindow(counts: Counts, ip: string, times: seq<int>)
    requires ip !in counts
    requires NonDecreasing(times)
    requires times != [] ==> Recent(times[|times| - 1], times[0])
    ensures var tr := Replay(counts, ip, times);
            (forall i :: 0 <= i < |times| ==> tr.decisions[i] == (i < RATE_LIMIT))
            && |tr.admitted| == AdmittedOf(|times|)
  {
    if times != [] {
      var before := times[..|times| - 1];
      var now := times[|times| - 1];
      assert times == before + [now];
      assert before != [] ==> before[|before| - 1] <= now && before[0] == times[0];
      BurstInOneWindow(counts, ip, before);
      WindowIsAllAdmitted(counts, ip, before, now);
      BurstStep(counts, ip, before, now);
    }
  }

  /**
   * The six-request scenario: a client with no history sends six requests
   * within one window; requests one to five are admitted and the sixth is
   * answered with 429.
   */
  lemma SixRequestsInOneWindow(counts: Counts, ip: string, times: seq<int>)
    requires ip !in counts
    requires |times| == 6
    requires NonDecreasing(times)
    requires Recent(times[5], times[0])
    ensures Replay(counts, ip, times).decisions == [true, true, true, true, true, false]
  {
    BurstInOneWindow(counts, ip, times);
  }


  /**
   * One more request from `ip` when its list has room and every stored
   * entry is still inside the window: it is admitted and recorded.
   */
  lemma AdmitWithRoom(counts: Counts, ip: string, before: seq<int>, now: int)
    requires ip in Replay(counts, ip, before).counts
    requires |Replay(counts, ip, before).counts[ip]| < RATE_LIMIT
    requires forall t :: t in Replay(counts, ip, before).counts[ip] ==> Recent(now, t)
    ensures Replay(counts, ip, before + [now]).admitted == Replay(counts, ip, before).admitted + [now]
    ensures Replay(counts, ip, before + [now]).counts[ip] == Replay(counts, ip, before).counts[ip] + [now]
  {
    var ts := Replay(counts, ip, before).counts[ip];
    assert (before + [now])[..|before|] == before;
    FilterKeepsAll(ts, RecentAt(now));
  }

  /**
   * One more request from `ip` when every stored entry is a full window old:
   * it is admitted and the list restarts from it.
   */
  lemma RestartAfterWindow(counts: Counts, ip: string, before: seq<int>, now: int)
    requires ip in Replay(counts, ip, before).counts
    requires forall t :: t in Replay(counts, ip, before).counts[ip] ==> !Recent(now, t)
    ensures Replay(counts, ip, before + [now]).admitted == Replay(counts, ip, before).admitted + [now]
    ensures Replay(counts, ip, before + [now]).counts[ip] == [now]
  {
    var ts := Replay(counts, ip, before).counts[ip];
    assert (before + [now])[..|before|] == before;
    forall i | 0 <= i < |ts| ensures !Recent(now, ts[i]) {
      assert ts[i] in ts;
    }
    FilterKeepsNone(ts, RecentAt(now));
  }

  /** Up to RATE_LIMIT requests at the same time from a new client are all admitted and all kept. */
  lemma SameTimeBurst(counts: Counts, ip: string, burst: seq<int>, at: int)
    requires ip !in counts
    requires 0 < |burst| <= RATE_LIMIT
    requires forall i :: 0 <= i < |burst| ==> burst[i] == at
    ensures Replay(counts, ip, burst).admitted == burst
    ensures Replay(counts, ip, burst).counts[ip] == burst
  {
    BurstInOneWindow(counts, ip, burst);
    ReplayKeepsRecentAdmitted(counts, ip, burst);
    var tr := Replay(counts, ip, burst);
    forall i | 0 <= i < |tr.admitted| ensures tr.admitted[i] == at {
      assert tr.admitted[i] in tr.admitted;
    }
    FilterKeepsAll(burst, RecentAt(at));
  }

  /**
   * Requests all at `now`, when every stored entry is inside the window at
   * `now` and the list has room for them, are all admitted and recorded.
   */
  lemma {:induction false} AdmitRun(counts: Counts, ip: string, before: seq<int>, more: seq<int>, now: int)
    requires ip in Replay(counts, ip, before).counts
    requires |Replay(counts, ip, before).counts[ip]| + |more| <= RATE_LIMIT
    requires forall t :: t in Replay(counts, ip, before).counts[ip] ==> Recent(now, t)
    requires forall i :: 0 <= i < |more| ==> more[i] == now
    ensures Replay(counts, ip, before + more).admitted == Replay(counts, ip, before).admitted + more
    ensures Replay(counts, ip, before + more).counts[ip] == Replay(counts, ip, before).counts[ip] + more
    decreases |more|
  {
    var a0, ts := Replay(counts, ip, before).admitted, Replay(counts, ip, before).counts[ip];
    if more == [] {
      assert before + more == before && a0 + more == a0 && ts + more == ts;
    } else {
      var init := more[..|more| - 1];
      var mid := before + init;
      var prev := Replay(counts, ip, mid);
      assert prev.admitted == a0 + init && prev.counts[ip] == ts + init by {
        AdmitRun(counts, ip, before, init, now);
      }
      var next := Replay(counts, ip, mid + [now]);
      assert next.admitted == prev.admitted + [now] && next.counts[ip] == prev.counts[ip] + [now] by {
        forall t | t in prev.counts[ip] ensures Recent(now, t) {
          assert t in ts || t in init;
        }
        AdmitWithRoom(counts, ip, mid, now);
      }
      assert more[|more| - 1] == now;
      AppendLast(before, more);
      AppendLast(a0, more);
      AppendLast(ts, more);
    }
  }

  /** Appending a non-empty sequence is appending all but its last element, then that element. */
  lemma AppendLast(xs: seq<int>, more: seq<int>)
    requires more != []
    ensures xs + more == (xs + more[..|more| - 1]) + [more[|more| - 1]]
  {
    assert more == more[..|more| - 1] + [more[|more| - 1]];
  }

  /**
   * RATE_LIMIT requests at `start` from a new client are admitted; one at
   * `start + 60` finds them all a full window old, is admitted, and the
   * list restarts from it.
   */
  lemma BurstThenRestart(counts: Counts, ip: string, start: int, burst: seq<int>)
    requires ip !in counts
    requires |burst| == RATE_LIMIT && forall i :: 0 <= i < |burst| ==> burst[i] == start
    ensures ip in Replay(counts, ip, burst + [start + 60]).counts
    ensures Replay(counts, ip, burst + [start + 60]).admitted == burst + [start + 60]
    ensures Replay(counts, ip, burst + [start + 60]).counts[ip] == [start + 60]
  {
    SameTimeBurst(counts, ip, burst, start);
    RestartAfterWindow(counts, ip, burst, start + 60);
  }

  /**
   * After the restart at `start + 60`, requests at `start + 59` find the
   * entry `start + 60` recent and fill the list up to RATE_LIMIT.
   */
  lemma StepBackRun(counts: Counts, ip: string, before: seq<int>, later: seq<int>, start: int)
    requires ip in Replay(counts, ip, before).counts
    requires Replay(counts, ip, before).admitted == before
    requires Replay(counts, ip, before).counts[ip] == [start + 60]
    requires |later| == RATE_LIMIT - 1 && forall i :: 0 <= i < |later| ==> later[i] == start + 59
    ensures Replay(counts, ip, before + later).admitted == before + later
  {
    AdmitRun(counts, ip, before, later, start + 59);
  }

  /** The request times of `ClockStepBackAdmitsMore` go back once, from `start + 60` to `start + 59`. */
  lemma ClockWentBack(burst: seq<int>, later: seq<int>, start: int)
    requires |burst| == RATE_LIMIT
    requires |later| == RATE_LIMIT - 1 && forall i :: 0 <= i < |later| ==> later[i] == start + 59
    ensures !NonDecreasing(burst + [start + 60] + later)
  {
    var times := burst + [start + 60] + later;
    assert times[5] == start + 60 && times[6] == start + 59;
  }

  /**
   * Of the request times of `ClockStepBackAdmitsMore`, all but `start + 60`
   * lie in the window that ends at `start + 59`: nine of them.
   */
  lemma NineInOneWindow(burst: seq<int>, later: seq<int>, start: int)
    requires |burst| == RATE_LIMIT && forall i :: 0 <= i < |burst| ==> burst[i] == start
    requires |later| == RATE_LIMIT - 1 && forall i :: 0 <= i < |later| ==> later[i] == start + 59
    ensures |InWindowAt(burst + [start + 60] + later, start + 59)| == 9
  {
    var inWindow := InWindow(start + 59);
    assert Filter(burst, inWindow) == burst by {
      FilterKeepsAll(burst, inWindow);
    }
    assert Filter([start + 60], inWindow) == [] by {
      FilterKeepsNone([start + 60], inWindow);
    }
    assert Filter(later, inWindow) == later by {
      FilterKeepsAll(later, inWindow);
    }
    assert Filter(burst + [start + 60], inWindow) == burst by {
      FilterAppend(burst, [start + 60], inWindow);
      assert burst + [] == burst;
    }
    assert Filter(burst + [start + 60] + later, inWindow) == burst + later by {
      FilterAppend(burst + [start + 60], later, inWindow);
    }
  }

  /**
   * The clock can step back, since `time.time()` reads the wall clock. A
   * new client's requests at `start` (five times), `start + 60`, then
   * `start + 59` (four times) are all admitted, nine of them at times inside
   * [start, start + 59]: the bound of `AtMostLimitPerWindow` needs a clock
   * that never goes back.
   */
  lemma ClockStepBackAdmitsMore(counts: Counts, ip: string, start: int, burst: seq<int>, later: seq<int>)
    requires ip !in counts
    requires |burst| == RATE_LIMIT && forall i :: 0 <= i < |burst| ==> burst[i] == start
    requires |later| == RATE_LIMIT - 1 && forall i :: 0 <= i < |later| ==> later[i] == start + 59
    ensures !NonDecreasing(burst + [start + 60] + later)
    ensures Replay(counts, ip, burst + [start + 60] + later).admitted == burst + [start + 60] + later
    ensures |InWindowAt(Replay(counts, ip, burst + [start + 60] + later).admitted, start + 59)| == 9
  {
    BurstThenRestart(counts, ip, start, burst);
    StepBackRun(counts, ip, burst + [start + 60], later, start);
    ClockWentBack(burst, later, start);
    NineInOneWindow(burst, later, start);
  }
}

=== FILE: routes.dfy ===
/**
 * The learning-path routes of the backend (backend/routes.py): create a
 * path from the result of the generation service, read one or all of them,
 * mark a milestone completed, delete a path. The database session becomes
 * a `Store` whose tables are sequences of rows in insertion order.
 */
module Routes {
  import opened Wrappers
  import opened Sequences
  import opened Models

  const NOT_FOUND: int := 404
  const SERVER_ERROR: int := 500
  const PATH_NOT_FOUND: string := "Learning path not found"
  const MILESTONE_NOT_FOUND: string := "Milestone not found"
  const PATH_DELETED: string := "Learning path deleted"

  /** The body of `POST /generate`. */
  datatype PathCreate = PathCreate(goal: string, experienceLevel: string, timeCommitment: string)

  /**
   * One milestone of the generation service's JSON answer. A key the
   * answer lacks is `None`.
   */
  datatype RawMilestone = RawMilestone(
    title: Option<string>,
    description: Option<string>,
    estimatedHours: Option<real>,
    resources: Option<seq<string>>)

  /** The generation service's JSON answer, each top-level key possibly missing. */
  datatype RawPath = RawPath(
    pathTitle: Option<string>,
    pathDescription: Option<string>,
    milestones: Option<seq<RawMilestone>>)

  /** A milestone of a well-formed answer. */
  datatype AiMilestone = AiMilestone(
    title: string,
    description: string,
    estimatedHours: real,
    resources: seq<string>)

  /** A well-formed answer. */
  datatype AiPath = AiPath(pathTitle: string, pathDescription: string, milestones: seq<AiMilestone>)

  /** `MilestoneResponse`: a milestone as the API returns it. */
  datatype MilestoneResponse = MilestoneResponse(
    id: int,
    title: string,
    description: string,
    order: int,
    estimatedHours: real,
    resources: seq<string>,
    completed: bool,
    completedAt: Option<int>)

  /** `LearningPathResponse`: a path with its milestones as the API returns it. */
  datatype PathResponse = PathResponse(
    id: int,
    title: string,
    description: string,
    experienceLevel: string,
    timeCommitment: string,
    createdAt: int,
    milestones: seq<MilestoneResponse>)

  /** An HTTPException: a status code and its detail text. */
  datatype HttpError = HttpError(status: int, detail: string)

  /** The body returned by `PATCH /milestones/{id}`. */
  datatype UpdateReply = UpdateReply(success: bool, milestoneId: int, completed: bool)

  /** The body returned by `DELETE /paths/{id}`. */
  datatype DeleteReply = DeleteReply(success: bool, message: string)

  /** The text of a KeyError for a missing key, which is what `str(e)` gives. */
  function KeyErrorDetail(key: string): (r: string)
    ensures |r| == |key| + 2
    ensures r[0] == '\'' && r[|r| - 1] == '\'' && r[1..|r| - 1] == key
  {
    "'" + key + "'"
  }

  /**
   * Reads the four keys of one milestone in the order the route reads them
   * (title, description, estimated_hours, resources); the first missing one
   * is the error.
   */
  function ParseMilestone(m: RawMilestone): (r: Result<AiMilestone, string>)
    ensures r.Success? <==>
      m.title.Some? && m.description.Some? && m.estimatedHours.Some? && m.resources.Some?
    ensures r.Success? ==>
      r.value == AiMilestone(m.title.value, m.description.value, m.estimatedHours.value, m.resources.value)
    ensures m.title.None? ==> r == Failure(KeyErrorDetail("title"))
    ensures m.title.Some? && m.description.None? ==> r == Failure(KeyErrorDetail("description"))
    ensures m.title.Some? && m.description.Some? && m.estimatedHours.None? ==>
      r == Failure(KeyErrorDetail("estimated_hours"))
    ensures m.title.Some? && m.description.Some? && m.estimatedHours.Some? && m.resources.None? ==>
      r == Failure(KeyErrorDetail("resources"))
  {
    if m.title.None? then Failure(KeyErrorDetail("title"))
    else if m.description.None? then Failure(KeyErrorDetail("description"))
    else if m.estimatedHours.None? then Failure(KeyErrorDetail("estimated_hours"))
    else if m.resources.None? then Failure(KeyErrorDetail("resources"))
    else Success(AiMilestone(m.title.value, m.description.value, m.estimatedHours.value, m.resources.value))
  }

  /** Reads every milestone in list order; the first malformed one is the error. */
  function ParseMilestones(ms: seq<RawMilestone>): (r: Result<seq<AiMilestone>, string>)
    ensures r.Success? <==> forall i :: 0 <= i < |ms| ==> ParseMilestone(ms[i]).Success?
    ensures r.Success? ==>
      |r.value| == |ms| && forall i :: 0 <= i < |ms| ==> r.value[i] == ParseMilestone(ms[i]).value
    ensures r.Failure? ==>
      exists k :: 0 <= k < |ms| && ParseMilestone(ms[k]) == Failure(r.error)
                  && forall i :: 0 <= i < k ==> ParseMilestone(ms[i]).Success?
  {
    if ms == [] then Success([])
    else
      match ParseMilestone(ms[0])
      case Failure(e) => Failure(e)
      case Success(m) =>
        match ParseMilestones(ms[1..])
        case Failure(e) =>
          assert forall i :: 1 <= i < |ms| ==> ms[i] == ms[1..][i - 1];
          Failure(e)
        case Success(rest) =>
          assert forall i :: 1 <= i < |ms| ==> ms[i] == ms[1..][i - 1];
          Success([m] + rest)
  }

  /**
   * Reads the generation service's answer in the order the route does:
   * path_title, path_description, milestones, then each milestone. A
   * missing key is a KeyError whose text is the error.
   */
  function ParseAi(raw: RawPath): (r: Result<AiPath, string>)
    ensures r.Success? <==>
      raw.pathTitle.Some? && raw.pathDescription.Some? && raw.milestones.Some?
      && ParseMilestones(raw.milestones.value).Success?
    ensures r.Success? ==>
      r.value.pathTitle == raw.pathTitle.value && r.value.pathDescription == raw.pathDescription.value
      && r.value.milestones == ParseMilestones(raw.milestones.value).value
    ensures raw.pathTitle.None? ==> r == Failure(KeyErrorDetail("path_title"))
    ensures raw.pathTitle.Some? && raw.pathDescription.None? ==>
      r == Failure(KeyErrorDetail("path_description"))
    ensures raw.pathTitle.Some? && raw.pathDescription.Some? && raw.milestones.None? ==>
      r == Failure(KeyErrorDetail("milestones"))
    ensures raw.pathTitle.Some? && raw.pathDescription.Some? && raw.milestones.Some?
            && ParseMilestones(raw.milestones.value).Failure? ==>
      r == Failure(ParseMilestones(raw.milestones.value).error)
  {
    if raw.pathTitle.None? then Failure(KeyErrorDetail("path_title"))
    else if raw.pathDescription.None? then Failure(KeyErrorDetail("path_description"))
    else if raw.milestones.None? then Failure(KeyErrorDetail("milestones"))
    else
      match ParseMilestones(raw.milestones.value)
      case Failure(e) => Failure(e)
      case Success(ms) => Success(AiPath(raw.pathTitle.value, raw.pathDescription.value, ms))
  }

  /** The row created for milestone number `order` of a generated path: not completed yet. */
  function NewMilestone(id: int, pathId: int, order: int, m: AiMilestone): (r: Milestone)
    ensures r.id == id && r.learningPathId == pathId && r.order == order
    ensures r.title == m.title && r.description == m.description
    ensures r.estimatedHours == m.estimatedHours && r.resources == m.resources
    ensures !r.completed && r.completedAt.None? && CompletionConsistent(r)
  {
    Milestone(id, pathId, m.title, m.description, order, m.estimatedHours, m.resources, false, None)
  }

  /**
   * The rows created for the milestones of a generated path, numbered from
   * `firstId` in list order, each with its position as `order`.
   */
  function NewRows(firstId: int, pathId: int, ms: seq<AiMilestone>): (r: seq<Milestone>)
    ensures |r| == |ms|
    ensures forall i :: 0 <= i < |ms| ==>
      && r[i].id == firstId + i && r[i].learningPathId == pathId && r[i].order == i
      && !r[i].completed && CompletionConsistent(r[i])
      && r[i].title == ms[i].title && r[i].description == ms[i].description
      && r[i].estimatedHours == ms[i].estimatedHours && r[i].resources == ms[i].resources
  {
    seq(|ms|, i requires 0 <= i < |ms| => NewMilestone(firstId + i, pathId, i, ms[i]))
  }

  /** A stored milestone as the API returns it. */
  function MilestoneView(m: Milestone): (r: MilestoneResponse)
    ensures r.id == m.id && r.title == m.title && r.description == m.description && r.order == m.order
    ensures r.estimatedHours == m.estimatedHours && r.resources == m.resources
    ensures r.completed == m.completed && r.completedAt == m.completedAt
    ensures CompletionConsistent(m) ==> (r.completed <==> r.completedAt.Some?)
  {
    MilestoneResponse(m.id, m.title, m.description, m.order, m.estimatedHours, m.resources,
                      m.completed, m.completedAt)
  }

  /** One more parsed milestone adds one more row, numbered after the others. */
  lemma NewRowsSnoc(firstId: int, pathId: int, ms: seq<AiMilestone>, m: AiMilestone)
    ensures NewRows(firstId, pathId, ms + [m])
            == NewRows(firstId, pathId, ms) + [NewMilestone(firstId + |ms|, pathId, |ms|, m)]
  {
  }

  /** The KeyError of the first malformed milestone is the one the whole list reports. */
  lemma FirstFailure(ms: seq<RawMilestone>, k: int)
    requires 0 <= k < |ms| && ParseMilestone(ms[k]).Failure?
    requires forall i :: 0 <= i < k ==> ParseMilestone(ms[i]).Success?
    ensures ParseMilestones(ms) == Failure(ParseMilestone(ms[k]).error)
  {
    var r := ParseMilestones(ms);
    var j :| 0 <= j < |ms| && ParseMilestone(ms[j]) == Failure(r.error)
             && forall i :: 0 <= i < j ==> ParseMilestone(ms[i]).Success?;
    assert j == k;
  }

  /** The sort key of `sorted(..., key=lambda x: x.order)`. */
  function OrderKey(m: MilestoneResponse): int
  {
    m.order
  }

  /** The sort key of `order_by(created_at.desc())`: newest first. */
  function NewestFirst(p: LearningPath): int
  {
    -p.createdAt
  }

  /**
   * A stored path as the API returns it: its own fields and its milestones
   * sorted by `order`. The response holds exactly the path's milestones.
   */
  function PathView(milestones: seq<Milestone>, p: LearningPath): (r: PathResponse)
    ensures r.id == p.id && r.title == p.title && r.description == p.description
    ensures r.experienceLevel == p.experienceLevel && r.timeCommitment == p.timeCommitment
    ensures r.createdAt == p.createdAt
    ensures SortedBy(r.milestones, OrderKey)
    ensures multiset(r.milestones) == multiset(MapSeq(MilestoneView, ChildrenOf(milestones, p.id)))
  {
    PathResponse(p.id, p.title, p.description, p.experienceLevel, p.timeCommitment, p.createdAt,
                 SortBy(MapSeq(MilestoneView, ChildrenOf(milestones, p.id)), OrderKey))
  }

  /** `PathView` over a fixed milestone table, to be mapped over paths. */
  function ViewIn(milestones: seq<Milestone>): LearningPath -> PathResponse
  {
    p => PathView(milestones, p)
  }

  /** The first path with the given id, as `query(...).filter(id == ...).first()` finds it. */
  function FindPath(paths: seq<LearningPath>, id: int): (r: Option<LearningPath>)
    ensures r.None? <==> id !in PathIds(paths)
    ensures r.Some? ==> r.value in paths && r.value.id == id
  {
    if paths == [] then None
    else if paths[0].id == id then Some(paths[0])
    else
      assert forall p :: p in paths[1..] ==> p in paths;
      assert forall p :: p in paths ==> p == paths[0] || p in paths[1..];
      FindPath(paths[1..], id)
  }

  /** A path appended with an id not yet used is the one a lookup of that id finds. */
  lemma {:induction false} FindAppended(paths: seq<LearningPath>, p: LearningPath)
    requires p.id !in PathIds(paths)
    ensures FindPath(paths + [p], p.id) == Some(p)
  {
    if paths != [] {
      assert paths[0] in paths;
      assert (paths + [p])[1..] == paths[1..] + [p];
      assert PathIds(paths[1..]) <= PathIds(paths) by {
        forall q | q in paths[1..] ensures q in paths { }
      }
      FindAppended(paths[1..], p);
    }
  }

  /** The position of the first milestone with the given id. */
  function FindMilestone(milestones: seq<Milestone>, id: int): (r: Option<nat>)
    ensures r.None? <==> forall i :: 0 <= i < |milestones| ==> milestones[i].id != id
    ensures r.Some? ==> r.value < |milestones| && milestones[r.value].id == id
  {
    if milestones == [] then None
    else if milestones[0].id == id then Some(0)
    else
      match FindMilestone(milestones[1..], id)
      case None => None
      case Some(k) => Some(k + 1)
  }

  /**
   * `GET /paths/{id}`: the path with that id and its milestones sorted by
   * `order`, or 404 when there is none.
   */
  function GetPath(paths: seq<LearningPath>, milestones: seq<Milestone>, id: int)
    : (r: Result<PathResponse, HttpError>)
    ensures r.Failure? <==> id !in PathIds(paths)
    ensures r.Failure? ==> r.error == HttpError(NOT_FOUND, PATH_NOT_FOUND)
    ensures r.Success? ==> r.value.id == id && exists p :: p in paths && r.value == PathView(milestones, p)
    ensures r.Success? ==> SortedBy(r.value.milestones, OrderKey)
    ensures r.Success? ==>
      multiset(r.value.milestones) == multiset(MapSeq(MilestoneView, ChildrenOf(milestones, id)))
  {
    match FindPath(paths, id)
    case None => Failure(HttpError(NOT_FOUND, PATH_NOT_FOUND))
    case Some(p) => Success(PathView(milestones, p))
  }

  /**
   * `GET /paths`: every path, newest `created_at` first, each with its
   * milestones sorted by `order`.
   */
  function ListPaths(paths: seq<LearningPath>, milestones: seq<Milestone>): (r: seq<PathResponse>)
    ensures |r| == |paths|
    ensures forall i, j :: 0 <= i < j < |r| ==> r[i].createdAt >= r[j].createdAt
    ensures forall i :: 0 <= i < |r| ==> SortedBy(r[i].milestones, OrderKey)
    ensures multiset(r) == multiset(MapSeq(ViewIn(milestones), paths))
  {
    var newestFirst := SortBy(paths, NewestFirst);
    MapSeqPermutation(ViewIn(milestones), newestFirst, paths);
    ViewsInOrder(milestones, newestFirst);
    MapSeq(ViewIn(milestones), newestFirst)
  }

  /** Viewing paths keeps their creation times in place and sorts each path's milestones. */
  lemma ViewsInOrder(milestones: seq<Milestone>, paths: seq<LearningPath>)
    requires SortedBy(paths, NewestFirst)
    ensures var r := MapSeq(ViewIn(milestones), paths);
            && (forall i, j :: 0 <= i < j < |r| ==> r[i].createdAt >= r[j].createdAt)
            && (forall i :: 0 <= i < |r| ==> SortedBy(r[i].milestones, OrderKey))
  {
    var r := MapSeq(ViewIn(milestones), paths);
    forall i | 0 <= i < |r| ensures r[i] == PathView(milestones, paths[i]) {
      assert r[i] == ViewIn(milestones)(paths[i]);
    }
    forall i, j | 0 <= i < j < |r| ensures r[i].createdAt >= r[j].createdAt {
      assert NewestFirst(paths[i]) <= NewestFirst(paths[j]);
    }
  }

  /**
   * The view of a path created just now: none of the older rows belong to
   * it and its rows carry orders 0, 1, 2, ... in table order, so the
   * response lists exactly its rows, in the order they were created.
   */
  lemma FreshPathView(older: seq<Milestone>, rows: seq<Milestone>, p: LearningPath)
    requires forall m :: m in older ==> m.learningPathId != p.id
    requires forall i :: 0 <= i < |rows| ==> rows[i].learningPathId == p.id && rows[i].order == i
    ensures PathView(older + rows, p).milestones == MapSeq(MilestoneView, rows)
  {
    FilterAppend(older, rows, ChildOf(p.id));
    forall i | 0 <= i < |older| ensures !ChildOf(p.id)(older[i]) {
      assert older[i] in older;
    }
    FilterKeepsNone(older, ChildOf(p.id));
    FilterKeepsAll(rows, ChildOf(p.id));
    assert ChildrenOf(older + rows, p.id) == rows;
    SortByOfSorted(MapSeq(MilestoneView, rows), OrderKey);
  }

  /**
   * The generation scenario with a mocked answer of one milestone: the
   * answer is well formed, the path is titled "Test Path", and the response
   * lists one milestone, "Test Milestone", not completed.
   */
  lemma OneMilestoneAnswer(firstId: int, pathId: int)
    ensures var raw := RawPath(Some("Test Path"), Some("Test Description"),
                               Some([RawMilestone(Some("Test Milestone"), Some("Test Description"),
                                                  Some(5.0), Some(["Resource 1"]))]));
            && ParseAi(raw).Success?
            && ParseAi(raw).value.pathTitle == "Test Path"
            && var views := MapSeq(MilestoneView, NewRows(firstId, pathId, ParseAi(raw).value.milestones));
               |views| == 1 && views[0].title == "Test Milestone" && !views[0].completed
               && views[0].order == 0 && views[0].completedAt.None?
  {
    var item := RawMilestone(Some("Test Milestone"), Some("Test Description"), Some(5.0), Some(["Resource 1"]));
    var m := AiMilestone("Test Milestone", "Test Description", 5.0, ["Resource 1"]);
    assert ParseMilestone(item) == Success(m);
    assert [item][1..] == [];
    assert ParseMilestones([item]) == Success([m] + []);
    assert NewRows(firstId, pathId, [m]) == [NewMilestone(firstId, pathId, 0, m)];
  }

  /**
   * The tables are consistent: ids are positive, unique and below the next
   * id to hand out; every milestone belongs to a stored path; within a
   * path no two milestones share an `order`; completion flag and
   * completion time agree.
   */
  ghost predicate TablesValid(paths: seq<LearningPath>, milestones: seq<Milestone>,
                              nextPathId: int, nextMilestoneId: int)
  {
    && (forall p :: p in paths ==> 1 <= p.id < nextPathId)
    && DistinctBy(paths, PathKey)
    && (forall m :: m in milestones ==> 1 <= m.id < nextMilestoneId)
    && DistinctBy(milestones, MilestoneKey)
    && (forall m :: m in milestones ==> m.learningPathId in PathIds(paths))
    && OrdersUnique(milestones)
    && (forall m :: m in milestones ==> CompletionConsistent(m))
  }

  /**
   * Creating a path with the next path id and rows numbered from the next
   * milestone id, all owned by it, ordered by position and with a
   * consistent completion state, keeps the tables consistent.
   */
  lemma CreateKeepsTablesValid(paths: seq<LearningPath>, milestones: seq<Milestone>,
                               nextPathId: int, nextMilestoneId: int,
                               p: LearningPath, rows: seq<Milestone>)
    requires TablesValid(paths, milestones, nextPathId, nextMilestoneId)
    requires p.id == nextPathId && 1 <= nextPathId && 1 <= nextMilestoneId
    requires forall i :: 0 <= i < |rows| ==>
      rows[i].id == nextMilestoneId + i && rows[i].learningPathId == p.id
      && rows[i].order == i && CompletionConsistent(rows[i])
    ensures TablesValid(paths + [p], milestones + rows, nextPathId + 1, nextMilestoneId + |rows|)
  {
    DistinctAppend(paths, [p], PathKey);
    forall i, j | 0 <= i < |milestones| && 0 <= j < |rows|
      ensures MilestoneKey(milestones[i]) != MilestoneKey(rows[j])
    {
      assert milestones[i] in milestones;
    }
    DistinctAppend(milestones, rows, MilestoneKey);
    assert PathIds(paths + [p]) == PathIds(paths) + {p.id};
    forall m | m in milestones + rows
      ensures 1 <= m.id < nextMilestoneId + |rows|
      ensures m.learningPathId in PathIds(paths + [p]) && CompletionConsistent(m)
    {
      if m !in milestones {
        var i :| 0 <= i < |rows| && rows[i] == m;
      }
    }
    // The new path's id is fresh, so its rows share a path only with each other.
    forall m | m in milestones ensures m.learningPathId != p.id {
      assert m.learningPathId in PathIds(paths);
    }
    assert OrdersUnique(milestones + rows) by {
      forall a, b | a in milestones + rows && b in milestones + rows && a.id != b.id
                    && a.learningPathId == b.learningPathId
        ensures a.order != b.order
      {
        if a in rows && b in rows {
          var i :| 0 <= i < |rows| && rows[i] == a;
          var j :| 0 <= j < |rows| && rows[j] == b;
        }
      }
    }
  }

  /** In consistent tables, a path id that is not there owns no milestone. */
  lemma UnknownPathHasNoChildren(paths: seq<LearningPath>, milestones: seq<Milestone>,
                                 nextPathId: int, nextMilestoneId: int, id: int)
    requires TablesValid(paths, milestones, nextPathId, nextMilestoneId)
    requires id !in PathIds(paths)
    ensures Filter(milestones, NotChildOf(id)) == milestones
    ensures ChildrenOf(milestones, id) == []
  {
    forall i | 0 <= i < |milestones| ensures NotChildOf(id)(milestones[i]) {
      assert milestones[i] in milestones;
    }
    FilterKeepsAll(milestones, NotChildOf(id));
  }

  /**
   * Deleting a path and, by the cascade, its milestones keeps the tables
   * consistent: no milestone is left without its path.
   */
  lemma DeleteKeepsTablesValid(paths: seq<LearningPath>, milestones: seq<Milestone>,
                               nextPathId: int, nextMilestoneId: int, id: int)
    requires TablesValid(paths, milestones, nextPathId, nextMilestoneId)
    ensures TablesValid(Filter(paths, OtherPath(id)), Filter(milestones, NotChildOf(id)),
                        nextPathId, nextMilestoneId)
  {
    var keptPaths := Filter(paths, OtherPath(id));
    FilterDistinct(paths, OtherPath(id), PathKey);
    FilterDistinct(milestones, NotChildOf(id), MilestoneKey);
    OrdersUniqueSubset(milestones, Filter(milestones, NotChildOf(id)));
    forall m | m in Filter(milestones, NotChildOf(id)) ensures m.learningPathId in PathIds(keptPaths) {
      assert m in milestones && m.learningPathId != id;
      assert m.learningPathId in PathIds(paths);
      var p :| p in paths && p.id == m.learningPathId;
      assert p in keptPaths;
    }
  }

  /**
   * Changing only the completion state of milestones, consistently, keeps
   * the tables consistent: ids, owners and `order` stay as they were.
   */
  lemma UpdateKeepsTablesValid(paths: seq<LearningPath>, milestones: seq<Milestone>,
                               updated: seq<Milestone>, nextPathId: int, nextMilestoneId: int)
    requires TablesValid(paths, milestones, nextPathId, nextMilestoneId)
    requires |updated| == |milestones|
    requires forall i :: 0 <= i < |milestones| ==>
      updated[i].id == milestones[i].id && updated[i].learningPathId == milestones[i].learningPathId
      && updated[i].order == milestones[i].order && CompletionConsistent(updated[i])
    ensures TablesValid(paths, updated, nextPathId, nextMilestoneId)
  {
    forall m | m in updated
      ensures 1 <= m.id < nextMilestoneId && m.learningPathId in PathIds(paths) && CompletionConsistent(m)
    {
      var i :| 0 <= i < |updated| && updated[i] == m;
      assert milestones[i] in milestones;
    }
    OrdersUniquePointwise(milestones, updated);
  }

  /** The milestones of one path, with distinct ids and unique orders, have distinct `order` keys. */
  lemma ChildOrdersDistinct(milestones: seq<Milestone>, id: int)
    requires DistinctBy(milestones, MilestoneKey) && OrdersUnique(milestones)
    ensures DistinctBy(MapSeq(MilestoneView, ChildrenOf(milestones, id)), OrderKey)
  {
    var children := ChildrenOf(milestones, id);
    FilterDistinct(milestones, ChildOf(id), MilestoneKey);
    var views := MapSeq(MilestoneView, children);
    forall i, j | 0 <= i < j < |views| ensures OrderKey(views[i]) != OrderKey(views[j]) {
      assert children[i] in children && children[j] in children;
    }
  }

  /**
   * In consistent tables `GET /paths/{id}` lists the milestones strictly
   * by `order`: no two milestones of a path share one, so the sort has no
   * tie to break and the response order is fully determined.
   */
  lemma GetPathStrictlyOrdered(paths: seq<LearningPath>, milestones: seq<Milestone>,
                               nextPathId: int, nextMilestoneId: int, id: int)
    requires TablesValid(paths, milestones, nextPathId, nextMilestoneId)
    ensures GetPath(paths, milestones, id).Success? ==>
      StrictlySortedBy(GetPath(paths, milestones, id).value.milestones, OrderKey)
  {
    ChildOrdersDistinct(milestones, id);
    SortByStrict(MapSeq(MilestoneView, ChildrenOf(milestones, id)), OrderKey);
    match FindPath(paths, id)
    case None =>
    case Some(p) =>
      assert GetPath(paths, milestones, id).value == PathView(milestones, p);
  }

  /**
   * What a committed creation leaves: consistent tables, and a response
   * that lists exactly the new rows, in the order they were created.
   */
  lemma CommittedPath(paths: seq<LearningPath>, milestones: seq<Milestone>,
                      nextPathId: int, nextMilestoneId: int,
                      p: LearningPath, ms: seq<AiMilestone>)
    requires TablesValid(paths, milestones, nextPathId, nextMilestoneId)
    requires p.id == nextPathId && 1 <= nextPathId && 1 <= nextMilestoneId
    ensures p.id !in PathIds(paths)
    ensures TablesValid(paths + [p], milestones + NewRows(nextMilestoneId, p.id, ms),
                        nextPathId + 1, nextMilestoneId + |ms|)
    ensures PathView(milestones + NewRows(nextMilestoneId, p.id, ms), p).milestones
            == MapSeq(MilestoneView, NewRows(nextMilestoneId, p.id, ms))
  {
    var rows := NewRows(nextMilestoneId, p.id, ms);
    CreateKeepsTablesValid(paths, milestones, nextPathId, nextMilestoneId, p, rows);
    assert p.id !in PathIds(paths);
    FreshPathView(milestones, rows, p);
  }

  /** The database session: the two tables and the next ids to hand out. */
  class Store {
    var paths: seq<LearningPath>
    var milestones: seq<Milestone>
    var nextPathId: int
    var nextMilestoneId: int

    /** The tables are consistent and the ids handed out are positive. */
    ghost predicate Valid()
      reads this
    {
      TablesValid(paths, milestones, nextPathId, nextMilestoneId) && 1 <= nextPathId && 1 <= nextMilestoneId
    }

    /** An empty database. */
    constructor ()
      ensures Valid()
      ensures paths == [] && milestones == []
      ensures nextPathId == 1 && nextMilestoneId == 1
    {
      paths, milestones := [], [];
      nextPathId, nextMilestoneId := 1, 1;
    }

    /**
     * `POST /generate` after the generation service answered `ai` (a
     * failure carries the text of the exception it raised). Writes the path
     * row and one row per milestone with `order` its position and not
     * completed; any exception rolls every write back and is reported as 500.
     */
    method CreateLearningPath(req: PathCreate, ai: Result<RawPath, string>, now: int)
      returns (r: Result<PathResponse, HttpError>)
      requires Valid()
      modifies this
      ensures Valid()
      ensures r.Failure? <==> ai.Failure? || ParseAi(ai.value).Failure?
      ensures ai.Failure? ==> r == Failure(HttpError(SERVER_ERROR, ai.error))
      ensures ai.Success? && ParseAi(ai.value).Failure? ==>
        r == Failure(HttpError(SERVER_ERROR, ParseAi(ai.value).error))
      ensures r.Failure? ==>
        paths == old(paths) && milestones == old(milestones)
        && nextPathId == old(nextPathId) && nextMilestoneId == old(nextMilestoneId)
      ensures r.Success? ==>
        var a := ParseAi(ai.value).value;
        var p := LearningPath(old(nextPathId), a.pathTitle, a.pathDescription,
                              req.experienceLevel, req.timeCommitment, now, now);
        var rows := NewRows(old(nextMilestoneId), p.id, a.milestones);
        && p.id !in PathIds(old(paths))
        && paths == old(paths) + [p]
        && milestones == old(milestones) + rows
        && nextPathId == old(nextPathId) + 1
        && nextMilestoneId == old(nextMilestoneId) + |a.milestones|
        && r.value == PathView(milestones, p)
        && r.value.milestones == MapSeq(MilestoneView, rows)
        && GetPath(paths, milestones, p.id) == r
    {
      // The session's state before the transaction, for the rollback.
      var savedPaths, savedMilestones := paths, milestones;
      var savedNextPathId, savedNextMilestoneId := nextPathId, nextMilestoneId;
      var written := WriteGeneratedPath(req, ai, now);
      if written.Failure? {
        // Any failure: roll the session back and answer 500 with the exception text.
        paths, milestones, nextPathId, nextMilestoneId :=
          savedPaths, savedMilestones, savedNextPathId, savedNextMilestoneId;
        return Failure(HttpError(SERVER_ERROR, written.error));
      }
      // Commit; the response lists the path's milestones sorted by their order.
      var p := written.value;
      var ms := ParseAi(ai.value).value.milestones;
      CommittedPath(savedPaths, savedMilestones, savedNextPathId, savedNextMilestoneId, p, ms);
      FindAppended(savedPaths, p);
      r := Success(PathView(milestones, p));
    }

    /**
     * The body of the route's `try` block: reads the generation service's
     * answer, adds the path row (the flush hands out its id), then one row
     * per milestone. Fails with the exception's text at the first missing
     * key; what it wrote by then is left for the caller to roll back.
     */
    method WriteGeneratedPath(req: PathCreate, ai: Result<RawPath, string>, now: int)
      returns (written: Result<LearningPath, string>)
      modifies this
      ensures written.Failure? <==> ai.Failure? || ParseAi(ai.value).Failure?
      ensures ai.Failure? ==> written == Failure(ai.error)
      ensures ai.Success? && ParseAi(ai.value).Failure? ==> written == Failure(ParseAi(ai.value).error)
      ensures written.Success? ==>
        var a := ParseAi(ai.value).value;
        && written.value == LearningPath(old(nextPathId), a.pathTitle, a.pathDescription,
                                         req.experienceLevel, req.timeCommitment, now, now)
        && paths == old(paths) + [written.value] && nextPathId == old(nextPathId) + 1
        && milestones == old(milestones) + NewRows(old(nextMilestoneId), written.value.id, a.milestones)
        && nextMilestoneId == old(nextMilestoneId) + |a.milestones|
    {
      if ai.Failure? {
        return Failure(ai.error);
      }
      var raw := ai.value;
      if raw.pathTitle.None? {
        return Failure(KeyErrorDetail("path_title"));
      }
      if raw.pathDescription.None? {
        return Failure(KeyErrorDetail("path_description"));
      }
      // Add the path row and flush it, which hands out its id.
      var p := LearningPath(nextPathId, raw.pathTitle.value, raw.pathDescription.value,
                            req.experienceLevel, req.timeCommitment, now, now);
      paths := paths + [p];
      nextPathId := nextPathId + 1;
      if raw.milestones.None? {
        return Failure(KeyErrorDetail("milestones"));
      }
      var err := AddMilestones(p.id, raw.milestones.value);
      if err.Some? {
        return Failure(err.value);
      }
      written := Success(p);
    }

    /**
     * The loop of the generation route: one row per milestone of the answer,
     * in list order, owned by path `pathId`, with `order` its position and
     * not completed. It stops at the first malformed milestone and reports
     * the KeyError text.
     */
    method AddMilestones(pathId: int, items: seq<RawMilestone>) returns (err: Option<string>)
      modifies this
      ensures paths == old(paths) && nextPathId == old(nextPathId)
      ensures err.None? <==> ParseMilestones(items).Success?
      ensures err.Some? ==> err.value == ParseMilestones(items).error
      ensures err.None? ==>
        && nextMilestoneId == old(nextMilestoneId) + |items|
        && milestones
           == old(milestones) + NewRows(old(nextMilestoneId), pathId, ParseMilestones(items).value)
    {
      var idx := 0;
      ghost var parsed: seq<AiMilestone> := [];
      while idx < |items|
        invariant 0 <= idx <= |items| && |parsed| == idx
        invariant paths == old(paths) && nextPathId == old(nextPathId)
        invariant nextMilestoneId == old(nextMilestoneId) + idx
        invariant forall i :: 0 <= i < idx ==> ParseMilestone(items[i]) == Success(parsed[i])
        invariant milestones == old(milestones) + NewRows(old(nextMilestoneId), pathId, parsed)
      {
        var item := ParseMilestone(items[idx]);
        if item.Failure? {
          FirstFailure(items, idx);
          return Some(item.error);
        }
        NewRowsSnoc(old(nextMilestoneId), pathId, parsed, item.value);
        milestones := milestones + [NewMilestone(nextMilestoneId, pathId, idx, item.value)];
        nextMilestoneId := nextMilestoneId + 1;
        parsed := parsed + [item.value];
        idx := idx + 1;
      }
      assert parsed == ParseMilestones(items).value;
      err := None;
    }

    /**
     * `PATCH /milestones/{id}`: sets the completion flag of that milestone,
     * with the completion time `now` when it becomes completed and none
     * otherwise; 404 when there is no such milestone. Nothing else changes.
     */
    method UpdateMilestone(id: int, completed: bool, now: int) returns (r: Result<UpdateReply, HttpError>)
      requires Valid()
      modifies this
      ensures Valid()
      ensures r.Failure? <==> forall i :: 0 <= i < |old(milestones)| ==> old(milestones)[i].id != id
      ensures r.Failure? ==>
        r.error == HttpError(NOT_FOUND, MILESTONE_NOT_FOUND) && milestones == old(milestones)
      ensures r.Success? ==> r.value == UpdateReply(true, id, completed)
      ensures paths == old(paths) && nextPathId == old(nextPathId) && nextMilestoneId == old(nextMilestoneId)
      ensures |milestones| == |old(milestones)|
      ensures forall i :: 0 <= i < |milestones| ==>
        milestones[i] == if old(milestones)[i].id == id
                         then old(milestones)[i].(completed := completed,
                                                  completedAt := if completed then Some(now) else None)
                         else old(milestones)[i]
    {
      var found := FindMilestone(milestones, id);
      if found.None? {
        return Failure(HttpError(NOT_FOUND, MILESTONE_NOT_FOUND));
      }
      var k := found.value;
      var m := milestones[k];
      var updated := milestones[k := m.(completed := completed,
                                        completedAt := if completed then Some(now) else None)];
      UpdateKeepsTablesValid(paths, milestones, updated, nextPathId, nextMilestoneId);
      milestones := updated;
      r := Success(UpdateReply(true, id, milestones[k].completed));
    }

    /**
     * `DELETE /paths/{id}`: removes the path and, by the cascade, every
     * milestone it owns; 404 when there is no such path. Other paths keep
     * their rows and their milestones, in the same order.
     */
    method DeletePath(id: int) returns (r: Result<DeleteReply, HttpError>)
      requires Valid()
      modifies this
      ensures Valid()
      ensures r.Failure? <==> id !in PathIds(old(paths))
      ensures r.Failure? ==>
        r.error == HttpError(NOT_FOUND, PATH_NOT_FOUND)
        && paths == old(paths) && milestones == old(milestones)
      ensures r.Success? ==>
        r.value == DeleteReply(true, PATH_DELETED)
        && id !in PathIds(paths)
        && ChildrenOf(milestones, id) == []
        && GetPath(paths, milestones, id) == Failure(HttpError(NOT_FOUND, PATH_NOT_FOUND))
      ensures forall p :: p in paths <==> p in old(paths) && p.id != id
      ensures forall m :: m in milestones <==> m in old(milestones) && m.learningPathId != id
      ensures forall other :: other != id ==> ChildrenOf(milestones, other) == ChildrenOf(old(milestones), other)
      ensures nextPathId == old(nextPathId) && nextMilestoneId == old(nextMilestoneId)
    {
      var found := FindPath(paths, id);
      if found.None? {
        UnknownPathHasNoChildren(paths, milestones, nextPathId, nextMilestoneId, id);
        return Failure(HttpError(NOT_FOUND, PATH_NOT_FOUND));
      }
      DeleteKeepsTablesValid(paths, milestones, nextPathId, nextMilestoneId, id);
      var oldMilestones := milestones;
      paths := Filter(paths, OtherPath(id));
      milestones := Filter(milestones, NotChildOf(id));
      forall other | true
        ensures ChildrenOf(milestones, id) == []
        ensures other != id ==> ChildrenOf(milestones, other) == ChildrenOf(oldMilestones, other)
      {
        CascadeRemovesOnlyChildren(oldMilestones, id, other);
      }
      r := Success(DeleteReply(true, PATH_DELETED));
    }
  }
}

=== FILE: sequences.dfy ===
/**
 * Generic sequence operations the backend relies on: a list comprehension
 * with a condition (Filter), a sort by key standing for Python's `sorted(..., key=...)` (SortBy)
 * and building one record per row (MapSeq).
 */
module Sequences {

  /** The elements of `s` that satisfy `keep`, in their original order. */
  function Filter<T(!new)>(s: seq<T>, keep: T -> bool): (r: seq<T>)
    ensures |r| <= |s|
    ensures forall x :: x in r <==> x in s && keep(x)
    ensures forall x :: multiset(r)[x] == if keep(x) then multiset(s)[x] else 0
  {
    if s == [] then []
    else
      assert s == [s[0]] + s[1..];
      if keep(s[0]) then [s[0]] + Filter(s[1..], keep) else Filter(s[1..], keep)
  }

  /** Filtering distributes over concatenation, so it keeps the relative order. */
  lemma {:induction false} FilterAppend<T(!new)>(a: seq<T>, b: seq<T>, keep: T -> bool)
    ensures Filter(a + b, keep) == Filter(a, keep) + Filter(b, keep)
  {
    if a == [] {
      assert a + b == b;
    } else {
      assert (a + b)[0] == a[0];
      assert (a + b)[1..] == a[1..] + b;
      FilterAppend(a[1..], b, keep);
    }
  }

  /** When every element is kept, filtering changes nothing. */
  lemma {:induction false} FilterKeepsAll<T(!new)>(s: seq<T>, keep: T -> bool)
    requires forall i :: 0 <= i < |s| ==> keep(s[i])
    ensures Filter(s, keep) == s
  {
    if s != [] {
      FilterKeepsAll(s[1..], keep);
    }
  }

  /** Filtering drops everything when nothing passes the condition. */
  lemma {:induction false} FilterKeepsNone<T(!new)>(s: seq<T>, keep: T -> bool)
    requires forall i :: 0 <= i < |s| ==> !keep(s[i])
    ensures Filter(s, keep) == []
  {
    if s != [] {
      FilterKeepsNone(s[1..], keep);
    }
  }

  /** Filtering by a weaker condition first does not change what a stronger one keeps. */
  lemma {:induction false} FilterOfFilter<T(!new)>(s: seq<T>, weak: T -> bool, strong: T -> bool)
    requires forall x :: strong(x) ==> weak(x)
    ensures Filter(Filter(s, weak), strong) == Filter(s, strong)
  {
    if s != [] {
      FilterOfFilter(s[1..], weak, strong);
      if weak(s[0]) {
        var w := [s[0]] + Filter(s[1..], weak);
        assert w[0] == s[0] && w[1..] == Filter(s[1..], weak);
      }
    }
  }

  /** A condition that implies another, on the elements of `s`, keeps no more of `s`. */
  lemma {:induction false} FilterSubsumed<T(!new)>(s: seq<T>, weak: T -> bool, strong: T -> bool)
    requires forall x :: x in s ==> (strong(x) ==> weak(x))
    ensures |Filter(s, strong)| <= |Filter(s, weak)|
  {
    if s != [] {
      assert s[0] in s;
      assert forall x :: x in s[1..] ==> x in s;
      FilterSubsumed(s[1..], weak, strong);
    }
  }

  /** No two elements of `s` have the same key. */
  predicate DistinctBy<T>(s: seq<T>, key: T -> int)
  {
    forall i, j :: 0 <= i < j < |s| ==> key(s[i]) != key(s[j])
  }

  /** The tail of a sequence with distinct keys has distinct keys, none of them the head's. */
  lemma DistinctTail<T>(s: seq<T>, key: T -> int)
    requires s != [] && DistinctBy(s, key)
    ensures DistinctBy(s[1..], key)
    ensures forall x :: x in s[1..] ==> key(x) != key(s[0])
  {
    forall x | x in s[1..] ensures key(x) != key(s[0]) {
      var j :| 0 <= j < |s[1..]| && s[1..][j] == x;
      assert s[j + 1] == x;
    }
  }

  /** Putting an element with a new key in front keeps keys distinct. */
  lemma DistinctCons<T>(x: T, s: seq<T>, key: T -> int)
    requires DistinctBy(s, key)
    requires forall y :: y in s ==> key(y) != key(x)
    ensures DistinctBy([x] + s, key)
  {
    var r := [x] + s;
    forall i, j | 0 <= i < j < |r| ensures key(r[i]) != key(r[j]) {
      assert r[j] == s[j - 1] && r[j] in s;
      if i > 0 {
        assert r[i] == s[i - 1];
      }
    }
  }

  /** Two sequences with distinct keys, and no key in both, concatenate to one with distinct keys. */
  lemma DistinctAppend<T>(a: seq<T>, b: seq<T>, key: T -> int)
    requires DistinctBy(a, key) && DistinctBy(b, key)
    requires forall i, j :: 0 <= i < |a| && 0 <= j < |b| ==> key(a[i]) != key(b[j])
    ensures DistinctBy(a + b, key)
  {
    var r := a + b;
    forall i, j | 0 <= i < j < |r| ensures key(r[i]) != key(r[j]) {
      if j < |a| {
        assert r[i] == a[i] && r[j] == a[j];
      } else if i < |a| {
        assert r[i] == a[i] && r[j] == b[j - |a|];
      } else {
        assert r[i] == b[i - |a|] && r[j] == b[j - |a|];
      }
    }
  }

  /** Filtering keeps keys distinct. */
  lemma {:induction false} FilterDistinct<T(!new)>(s: seq<T>, keep: T -> bool, key: T -> int)
    requires DistinctBy(s, key)
    ensures DistinctBy(Filter(s, keep), key)
  {
    if s != [] {
      DistinctTail(s, key);
      FilterDistinct(s[1..], keep, key);
      if keep(s[0]) {
        DistinctCons(s[0], Filter(s[1..], keep), key);
      }
    }
  }

  /** `s` is in ascending order of `key`. */
  predicate SortedBy<T>(s: seq<T>, key: T -> int)
  {
    forall i, j :: 0 <= i < j < |s| ==> key(s[i]) <= key(s[j])
  }

  /** Inserts `x` into a sorted sequence in front of the first element whose key is not smaller. */
  function Insert<T(!new)>(x: T, s: seq<T>, key: T -> int): (r: seq<T>)
    requires SortedBy(s, key)
    ensures SortedBy(r, key)
    ensures multiset(r) == multiset(s) + multiset{x}
    ensures forall y :: y in r ==> y == x || y in s
  {
    if s == [] then [x]
    else if key(x) <= key(s[0]) then [x] + s
    else
      assert s == [s[0]] + s[1..];
      var rest := Insert(x, s[1..], key);
      assert forall j :: 0 <= j < |rest| ==> key(s[0]) <= key(rest[j]) by {
        forall j | 0 <= j < |rest| ensures key(s[0]) <= key(rest[j]) {
          assert rest[j] in rest;
        }
      }
      [s[0]] + rest
  }

  /**
   * An insertion sort by `key`, standing for Python's `sorted(s, key=key)`:
   * sorted and a permutation of `s`. No order among equal keys is promised.
   */
  function SortBy<T(!new)>(s: seq<T>, key: T -> int): (r: seq<T>)
    ensures SortedBy(r, key)
    ensures |r| == |s|
    ensures multiset(r) == multiset(s)
  {
    if s == [] then []
    else
      assert s == [s[0]] + s[1..];
      var r := Insert(s[0], SortBy(s[1..], key), key);
      assert |r| == |multiset(r)|;
      r
  }

  /** Sorting a sequence that is already in order returns it unchanged. */
  lemma {:induction false} SortByOfSorted<T(!new)>(s: seq<T>, key: T -> int)
    requires SortedBy(s, key)
    ensures SortBy(s, key) == s
  {
    if s != [] {
      SortByOfSorted(s[1..], key);
      assert s == [s[0]] + s[1..];
    }
  }

  /** Every key is smaller than the keys after it. */
  predicate StrictlySortedBy<T>(s: seq<T>, key: T -> int)
  {
    forall i, j :: 0 <= i < j < |s| ==> key(s[i]) < key(s[j])
  }

  /** Inserting an element whose key is new into a strictly sorted sequence keeps it strictly sorted. */
  lemma {:induction false} InsertStrict<T(!new)>(x: T, s: seq<T>, key: T -> int)
    requires StrictlySortedBy(s, key)
    requires forall y :: y in s ==> key(y) != key(x)
    ensures StrictlySortedBy(Insert(x, s, key), key)
  {
    if s != [] && key(x) > key(s[0]) {
      assert s == [s[0]] + s[1..];
      InsertStrict(x, s[1..], key);
      var rest := Insert(x, s[1..], key);
      forall j | 0 <= j < |rest| ensures key(s[0]) < key(rest[j]) {
        assert rest[j] in rest;
        if rest[j] != x {
          assert rest[j] in s[1..];
        }
      }
    } else if s != [] {
      assert key(s[0]) != key(x);
    }
  }

  /** Sorting a sequence whose keys are distinct gives strictly increasing keys. */
  lemma {:induction false} SortByStrict<T(!new)>(s: seq<T>, key: T -> int)
    requires DistinctBy(s, key)
    ensures StrictlySortedBy(SortBy(s, key), key)
  {
    if s != [] {
      DistinctTail(s, key);
      SortByStrict(s[1..], key);
      var rest := SortBy(s[1..], key);
      forall y | y in rest ensures key(y) != key(s[0]) {
        assert multiset(rest)[y] > 0;
        assert y in s[1..];
      }
      InsertStrict(s[0], rest, key);
    }
  }

  /** One `f(x)` for every element `x` of `s`, in order. */
  function MapSeq<A, B>(f: A -> B, s: seq<A>): (r: seq<B>)
    ensures |r| == |s|
    ensures forall i :: 0 <= i < |s| ==> r[i] == f(s[i])
  {
    if s == [] then [] else [f(s[0])] + MapSeq(f, s[1..])
  }

  lemma {:induction false} MapSeqAppend<A, B>(f: A -> B, a: seq<A>, b: seq<A>)
    ensures MapSeq(f, a + b) == MapSeq(f, a) + MapSeq(f, b)
  {
    assert |MapSeq(f, a + b)| == |MapSeq(f, a) + MapSeq(f, b)|;
    forall i | 0 <= i < |a + b|
      ensures MapSeq(f, a + b)[i] == (MapSeq(f, a) + MapSeq(f, b))[i]
    {
      if i < |a| {
        assert (a + b)[i] == a[i];
      } else {
        assert (a + b)[i] == b[i - |a|];
      }
    }
  }

  /** Mapping two permutations of each other gives two permutations of each other. */
  lemma {:induction false} MapSeqPermutation<A, B>(f: A -> B, a: seq<A>, b: seq<A>)
    requires multiset(a) == multiset(b)
    ensures multiset(MapSeq(f, a)) == multiset(MapSeq(f, b))
  {
    if a == [] {
      assert |b| == |multiset(b)| == 0;
    } else {
      var x := a[0];
      assert x in multiset(a);
      assert x in b;
      var k :| 0 <= k < |b| && b[k] == x;
      var b' := b[..k] + b[k + 1..];
      assert b == b[..k] + [x] + b[k + 1..];
      assert a == [x] + a[1..];
      calc {
        multiset(b);
        multiset(b[..k] + [x] + b[k + 1..]);
        multiset(b[..k]) + multiset{x} + multiset(b[k + 1..]);
        multiset(b') + multiset{x};
      }
      assert multiset(a) == multiset{x} + multiset(a[1..]);
      assert forall y :: multiset(a[1..])[y] == multiset(b')[y] by {
        forall y ensures multiset(a[1..])[y] == multiset(b')[y] {
          assert multiset(a)[y] == multiset{x}[y] + multiset(a[1..])[y];
          assert multiset(b)[y] == multiset(b')[y] + multiset{x}[y];
        }
      }
      assert multiset(a[1..]) == multiset(b');
      MapSeqPermutation(f, a[1..], b');
      MapSeqAppend(f, b[..k] + [x], b[k + 1..]);
      MapSeqAppend(f, b[..k], [x]);
      MapSeqAppend(f, b[..k], b[k + 1..]);
      MapSeqAppend(f, [x], a[1..]);
    }
  }
}

=== FILE: wrappers.dfy ===
/** Optional values and results with an error, shared by the other modules. */
module Wrappers {

  datatype Option<+T> = None | Some(value: T)

  datatype Result<+T, +E> = Success(value: T) | Failure(error: E)
}
